=== FILE: README.md ===
# LuminaScreen colour core, modelled in Dafny

LuminaScreen is a browser "white screen" light: it fills the display with a
colour picked from swatches, a hex/RGB picker or a colour temperature in
Kelvin, dims it with a brightness slider, and can download the screen as a PNG.
This project models the colour logic of `script.js`:

- `clamp` and `Math.round` (module `Clamping`, `clamp.dfy`), over reals;
- the hex codec `hexToRgb` / `rgbToHex` (module `HexCodec`, `hex_codec.dfy`),
  with `rgbToHex` written as the source computes it: the sum
  `(1 << 24) + (r << 16) + (g << 8) + b`, rendered by `toString(16)`, sliced
  past the leading `1`, upper-cased and prefixed with `#`;
- `kelvinToRgb`, Tanner Helland's piecewise approximation (module `Kelvin`,
  `kelvin.dfy`), with `Math.log` and `Math.pow` passed in as arbitrary
  functions (`MathLib`), so its properties hold whatever they return;
- the session state `{color, brightness, kelvin, rgbFields}` and the
  mutators `setColor`, `setBrightness`, `setKelvin` and the RGB-box handler
  `updateFromRgb` (module `ColorState`, `color_state.dfy`); `rgbFields`
  stands for the three RGB number boxes that `setColor` writes and
  `updateFromRgb` reads;
- the opacity decision and the file name of `downloadImage` (module
  `Export`, `export.dfy`).

The state is an immutable datatype and every mutator is a function from the
old state to the new one.

The model follows the code as written:

- `setColor` stores any string as given: it never rejects one and never upper-cases it.
- It refreshes the RGB boxes only when the string starts with `#` and
  decodes. A bare `FF0000` is stored, but the boxes keep their old values.
- `setBrightness` stores the percent as given and does not clamp it.

`SetColorConsistency`, `SetColorKeepsMalformed` and `SetColorBareDigits`
state this behaviour.

## Model

| member | source | states |
|---|---|---|
| Clamping.Round | script.js:126 | `Math.round` gives the integer n with n - 1/2 <= x < n + 1/2 (halves round up) |
| Clamping.Clamp | script.js:123-127 | with integer bounds lo <= hi the result is an integer in [lo,hi]; below the range it is lo, above it hi, inside it the integer n with n - 1/2 <= x < n + 1/2 (halves round up, as `Math.round` does) |
| Clamping.ClampIsNearest | script.js:123-127 | no integer of [lo,hi] is closer to x than clamp(x) |
| Clamping.ClampFixesInRange | script.js:123-127 | clamp leaves an integer already in [lo,hi] unchanged |
| Clamping.ClampIdempotent | script.js:123-127 | clamp(clamp(x)) == clamp(x) |
| Clamping.ClampMonotone | script.js:123-127 | x <= y implies clamp(x) <= clamp(y) |
| HexCodec.ParsePair | script.js:132-134 | `parseInt` of a two-hex-digit group is below 256 |
| HexCodec.PairBytes | script.js:132-134 | the two upper-case hex digits of the parsed value of a digit pair are that pair's digits upper-cased |
| HexCodec.HexToRgb | script.js:129-136 | a triple is returned exactly when the input is an optional `#` then six hex digits of either case (`Accepted`), otherwise null; every returned channel is in [0,255] |
| HexCodec.Base16Split | script.js:139 | `toString(16)` of a * 16^k + v (v < 16^k) is the rendering of a followed by v padded to k digits |
| HexCodec.ToBase16 | script.js:139 | `toString(16)` of n is a non-empty string of lower-case hex digits whose first digit is `0` exactly when n is 0 |
| HexCodec.ToBase16RoundTrip | script.js:139 | reading the digits `toString(16)` writes as base 16 gives back the number rendered |
| HexCodec.RgbToHex | script.js:138-140 | for byte channels the shifted sum, rendered in base 16, sliced and upper-cased, equals `#` followed by the two upper-case big-endian hex digits of r, g and b |
| HexCodec.RgbToHexFormat | script.js:138-140 | the encoding is seven characters, `#` then six upper-case hex digits, and is accepted by the decoder |
| HexCodec.DecodeEncode | script.js:129-140 | hexToRgb(rgbToHex(r,g,b)) returns (r,g,b) for byte channels |
| HexCodec.EncodeDecode | script.js:129-140 | for every accepted string, rgbToHex of its decoding is `#` plus its six digits upper-cased |
| Kelvin.KelvinToRgb | script.js:91-121 | for any Kelvin value and any log/pow, every channel is an integer in [0,255]; temp <= 66 gives red 255, temp > 66 gives blue 255, temp <= 19 gives blue 0 |
| Kelvin.RawChannels | script.js:92-114 | before clamping, the warm branch (temp <= 66) has red exactly 255, the cool branch blue exactly 255, and temp <= 19 blue exactly 0, whatever log and pow return |
| Kelvin.GreenRisesBelow6600 | script.js:95-98 | up to 6600 K, with a monotone log, green never decreases as the temperature rises |
| Kelvin.BlueRisesBelow6600 | script.js:100-105 | up to 6600 K, with a monotone log, blue never decreases as the temperature rises |
| ColorState.Initial | script.js:6-12 | start-up brightness is 100 and Kelvin 6500, and the start-up colour is exactly the upper-case `#FFFFFF`, which decodes to white (255,255,255) |
| ColorState.InitialConsistency | script.js:6-12 | the start-up state `#FFFFFF` agrees with the RGB boxes exactly when they show 255,255,255 |
| ColorState.SetColor | script.js:49-67 | the colour is stored verbatim; brightness and Kelvin are untouched; when the string is `#`-prefixed and decodes the boxes get the decoded triple, otherwise they are unchanged |
| ColorState.SetColorConsistency | script.js:49-67 | after setColor, the colour decodes to the boxes' values exactly when the string was `#` plus six hex digits |
| ColorState.SetColorKeepsMalformed | script.js:49-63 | setColor("zzzzzz") stores the string, leaves the boxes alone and leaves the state inconsistent |
| ColorState.SetColorBareDigits | script.js:54-63 | a bare `FF0000` decodes, but without `#` it does not refresh the boxes |
| ColorState.SetColorLastWins | script.js:49-67 | a decodable `#` colour set after any other colour gives the same state as setting it alone |
| ColorState.SetBrightness | script.js:69-75 | the percent is stored unclamped and nothing else changes |
| ColorState.SetBrightnessKeepsConsistency | script.js:69-75 | setBrightness neither creates nor breaks agreement between colour and boxes |
| ColorState.SetKelvin | script.js:77-84 | k is stored, brightness is kept, the state is consistent, and the boxes hold kelvinToRgb(k) |
| ColorState.SetKelvinColorDecodes | script.js:77-84 | the colour set from Kelvin decodes to kelvinToRgb(k) and is its canonical `#RRGGBB` form |
| ColorState.ClampedBoxes | script.js:180 | each box value is clamped to a byte: kept when in range, 255 above, 0 below |
| ColorState.UpdateFromRgb | script.js:176-181 | the RGB handler stores the canonical upper-case `#RRGGBB` of the clamped values, leaves the boxes holding those values (so the state is consistent), and keeps Kelvin and brightness |
| ColorState.UpdateFromRgbIdempotent | script.js:176-181 | running the handler again on the boxes it wrote changes nothing |
| ColorState.UpdateFromRgbExample | script.js:176-181 | boxes (300, -10, 128) give colour `#FF0080` and boxes (255, 0, 128) |
| Export.Opacity | script.js:269 | for brightness in [0,100] the overlay alpha is in [0,1], 0 at 100 and 1 at 0; it is positive exactly when brightness is below 100 |
| Export.OpacityLinear | script.js:269 | the overlay alpha falls by exactly 1/100 per percent of brightness: Opacity(b1) - Opacity(b2) == (b2 - b1) / 100 |
| Export.OpacityValue | script.js:269-271 | the alpha written into the overlay's `rgba` is (100 - brightness) / 100 for every brightness |
| Export.DrawsOverlay | script.js:270 | the overlay is drawn exactly when brightness is below 100 |
| Export.OverlayExactlyWhenDimmed | script.js:69-75 | after setBrightness(p) the export draws the overlay exactly when p < 100 |
| Export.HalfBrightness | script.js:269 | after setBrightness(50) the overlay alpha is 1/2 |
| Export.RemoveFirstHash | script.js:277 | `replace('#','')` returns a string without `#` unchanged, and drops a leading `#` |
| Export.RemoveFirstHashCount | script.js:277 | when the string has a `#`, the result is one character shorter and lacks exactly one `#` (as a multiset) |
| Export.RemoveFirstHashAt | script.js:277 | the `#` removed is the first one: for its index i the result is s[..i] + s[i+1..], order kept |
| Export.Decimal | script.js:277 | the rendering of a width or height is a non-empty string of decimal digits |
| Export.DecimalRoundTrip | script.js:277 | reading the rendered digits back gives the number |
| Export.DecimalNoLeadingZero | script.js:277 | the rendering of a number starts with `0` only for 0 itself |
| Export.FileName | script.js:277 | the name is `whitescreen-`, the colour with its first `#` removed, `-`, width, `x`, height, `.png`, each at its computed position |
| Export.FileNameOfConsistent | script.js:277 | for a consistent state the name carries the colour's six hex digits at positions 12-17, then `-`, width, `x` and height at fixed positions |

## Left out

- DOM work is not modelled: element lookups, `style.setProperty`, the native picker value, the upper-cased hex label, the Kelvin and brightness labels, tabs and swatch listeners (script.js:14-35, 145-202). It only affects what is shown.
- Fullscreen handling, the idle timer and the resolution display are not modelled (script.js:204-250). They are browser APIs and timers.
- Canvas creation, `fillRect` compositing, PNG encoding and the link click are not modelled (script.js:253-280). They are calls into the browser. Only the opacity and file-name expressions are modelled, with width and height as parameters.
- Real `Math.log` / `Math.pow` numerics, IEEE rounding, NaN and infinities are not modelled. Log and pow are arbitrary real functions. In JavaScript, a Kelvin value of 0 or below makes `Math.log(temp)` return -Infinity or NaN. `clamp` turns -Infinity into 0 but passes NaN through, and the model does not capture that.
- Kelvin.KelvinToRgb: does not state that red stays near 255 just above 6600 K, where the two branches meet. That depends on the real value of pow.
- JavaScript coercions are not modelled. Slider values arrive as strings (script.js:189, 194) and the boxes go through `parseInt(...) || 0` (script.js:177-179). The model takes already-parsed numbers: reals for Kelvin and brightness, integers for the boxes.
- `String.prototype.toUpperCase` is modelled on ASCII letters only. The core applies it only to strings of hex digits.
- `<<` is modelled as multiplication by a power of two. This is exact for the byte channels `rgbToHex` receives, where no 32-bit wrap-around can occur.
- The `isFullscreen` and `activeTab` state fields are not modelled. Only UI code reads them.
- The initial values of the RGB boxes come from the page markup, which is not part of this model. `Initial` takes them as a parameter.
- Per-pixel black-over-colour compositing is not modelled. It is done by the canvas, and only the overlay's alpha is computed by the source.

=== FILE: clamp.dfy ===
/**
 * Rounding and clamping of slider and channel values (`clamp` in script.js).
 * JavaScript numbers are modelled as mathematical reals.
 */
module Clamping {

  /** `Math.round`: the nearest integer, halves rounded towards +infinity. */
  function Round(x: real): (n: int)
    ensures n as real - 0.5 <= x < n as real + 0.5
  {
    (x + 0.5).Floor
  }

  function Abs(x: real): real
  {
    if x < 0.0 then -x else x
  }

  /**
   * `clamp(x, min, max)`: a value below the range gives `min`, a value above it
   * gives `max` (both unrounded, but integral here since the bounds are
   * integers), and a value inside it is rounded, halves upwards.
   */
  function Clamp(x: real, lo: int, hi: int): (n: int)
    requires lo <= hi
    ensures lo <= n <= hi
    ensures x <= lo as real ==> n == lo
    ensures x >= hi as real ==> n == hi
    ensures lo as real <= x <= hi as real ==> n as real - 0.5 <= x < n as real + 0.5
  {
    if x < lo as real then lo
    else if x > hi as real then hi
    else Round(x)
  }

  /** No integer of the range is closer to `x` than the clamped value. */
  lemma ClampIsNearest(x: real, lo: int, hi: int, m: int)
    requires lo <= hi
    requires lo <= m <= hi
    ensures Abs(Clamp(x, lo, hi) as real - x) <= Abs(m as real - x)
  {
    var n := Clamp(x, lo, hi);
    if lo as real <= x <= hi as real {
      if m < n {
        assert n as real - 0.5 <= x;
      } else if m > n {
        assert x < n as real + 0.5;
      }
    }
  }

  /** Integers already inside the range are left as they are. */
  lemma ClampFixesInRange(m: int, lo: int, hi: int)
    requires lo <= m <= hi
    ensures Clamp(m as real, lo, hi) == m
  {
  }

  lemma ClampIdempotent(x: real, lo: int, hi: int)
    requires lo <= hi
    ensures Clamp(Clamp(x, lo, hi) as real, lo, hi) == Clamp(x, lo, hi)
  {
    ClampFixesInRange(Clamp(x, lo, hi), lo, hi);
  }

  lemma ClampMonotone(x: real, y: real, lo: int, hi: int)
    requires lo <= hi
    requires x <= y
    ensures Clamp(x, lo, hi) <= Clamp(y, lo, hi)
  {
  }
}

=== FILE: color_state.dfy ===
/**
 * The session state of script.js and the three mutators that change it, plus
 * the RGB-input handler. `rgbFields` stands for the values of the three RGB
 * number boxes, which `setColor` writes and `updateFromRgb` reads; the other
 * widgets `setColor` touches (native picker, hex label) are not modelled.
 */
module ColorState {
  import opened Options
  import opened Clamping
  import opened HexCodec
  import opened Kelvin

  datatype State = State(color: string, brightness: real, kelvin: real, rgbFields: Rgb)

  /**
   * The state after start-up: `#FFFFFF`, brightness 100, 6500 K. The RGB boxes
   * keep whatever the page markup gave them, so they are a parameter.
   */
  function Initial(fields: Rgb): (s: State)
    ensures s.brightness == 100.0 && s.kelvin == 6500.0 && s.rgbFields == fields
    ensures StartsWithHash(s.color) && HexToRgb(s.color) == Some(Rgb(255, 255, 255))
    ensures s.color == CanonicalHex(Rgb(255, 255, 255))
  {
    assert StripHash("#FFFFFF") == "FFFFFF";
    assert UpperDigit(15) == 'F';
    State("#FFFFFF", 100.0, 6500.0, fields)
  }

  predicate StartsWithHash(s: string)
  {
    |s| > 0 && s[0] == '#'
  }

  /** The colour is a `#`-prefixed hex colour and the RGB boxes show its channels. */
  predicate Consistent(s: State)
  {
    StartsWithHash(s.color) && HexToRgb(s.color) == Some(s.rgbFields)
  }

  /**
   * `setColor(color)`: the string is stored verbatim, never rejected and never
   * upper-cased; only a `#`-prefixed string that decodes refreshes the boxes.
   */
  function SetColor(s: State, color: string): (t: State)
    ensures t.color == color
    ensures t.brightness == s.brightness && t.kelvin == s.kelvin
    ensures StartsWithHash(color) && Accepted(color) ==> HexToRgb(color) == Some(t.rgbFields)
    ensures !(StartsWithHash(color) && Accepted(color)) ==> t.rgbFields == s.rgbFields
  {
    var fields :=
      if StartsWithHash(color) then
        match HexToRgb(color)
        case Some(c) => c
        case None => s.rgbFields
      else s.rgbFields;
    s.(color := color, rgbFields := fields)
  }

  /** `setBrightness(percent)`: the percent is stored as given, not clamped. */
  function SetBrightness(s: State, percent: real): (t: State)
    ensures t.brightness == percent
    ensures t.color == s.color && t.kelvin == s.kelvin && t.rgbFields == s.rgbFields
  {
    s.(brightness := percent)
  }

  /** Setting an encoded triple stores its string and shows the triple in the boxes. */
  lemma SetEncoded(s: State, c: Rgb)
    requires InByteRange(c)
    ensures var hex := RgbToHex(c.r, c.g, c.b);
      SetColor(s, hex) == s.(color := hex, rgbFields := c) && Consistent(SetColor(s, hex))
  {
    DecodeEncode(c);
  }

  /**
   * `setKelvin(k)`: `k` is stored, and the colour becomes the encoding of the
   * converted triple, which decodes back to exactly that triple.
   */
  function SetKelvin(s: State, k: real, m: MathLib): (t: State)
    ensures t.kelvin == k && t.brightness == s.brightness
    ensures Consistent(t)
    ensures t.rgbFields == KelvinToRgb(k, m)
  {
    var c := KelvinToRgb(k, m);
    SetEncoded(s.(kelvin := k), c);
    SetColor(s.(kelvin := k), RgbToHex(c.r, c.g, c.b))
  }

  /** The triple `updateFromRgb` encodes: each box value clamped to a byte. */
  function ClampedBoxes(r: int, g: int, b: int): (c: Rgb)
    ensures InByteRange(c)
    ensures 0 <= r <= 255 ==> c.r == r
    ensures 0 <= g <= 255 ==> c.g == g
    ensures 0 <= b <= 255 ==> c.b == b
    ensures (r > 255 ==> c.r == 255) && (r < 0 ==> c.r == 0)
    ensures (g > 255 ==> c.g == 255) && (g < 0 ==> c.g == 0)
    ensures (b > 255 ==> c.b == 255) && (b < 0 ==> c.b == 0)
  {
    Rgb(Clamp(r as real, 0, 255), Clamp(g as real, 0, 255), Clamp(b as real, 0, 255))
  }

  /**
   * The RGB-input handler on already-parsed box values: clamp, encode, and
   * `setColor`. The stored Kelvin value is left alone.
   */
  function UpdateFromRgb(s: State, r: int, g: int, b: int): (t: State)
    ensures Consistent(t)
    ensures t.kelvin == s.kelvin && t.brightness == s.brightness
    ensures t.rgbFields == ClampedBoxes(r, g, b)
    ensures t.color == CanonicalHex(ClampedBoxes(r, g, b))
  {
    var c := ClampedBoxes(r, g, b);
    SetEncoded(s, c);
    SetColor(s, RgbToHex(c.r, c.g, c.b))
  }

  /* ---------- lemmas about the mutators ---------- */

  /**
   * A `setColor` leaves the state consistent exactly when it was given `#`
   * and six hex digits; anything else is stored all the same.
   */
  lemma SetColorConsistency(s: State, color: string)
    ensures Consistent(SetColor(s, color))
            <==> (|color| == 7 && color[0] == '#' && AllHex(color[1..]))
  {
  }

  /** A malformed colour is stored and the boxes keep their old values. */
  lemma SetColorKeepsMalformed(s: State)
    ensures SetColor(s, "zzzzzz") == s.(color := "zzzzzz")
    ensures !Consistent(SetColor(s, "zzzzzz"))
  {
    assert !IsHexDigit("zzzzzz"[0]);
  }

  /** A bare six-digit colour is stored but, lacking `#`, does not refresh the boxes. */
  lemma SetColorBareDigits(s: State)
    ensures SetColor(s, "FF0000").rgbFields == s.rgbFields
    ensures HexToRgb("FF0000") == Some(Rgb(255, 0, 0))
  {
    assert Accepted("FF0000");
  }

  /** Setting the brightness keeps whatever consistency the colour had. */
  lemma SetBrightnessKeepsConsistency(s: State, percent: real)
    ensures Consistent(SetBrightness(s, percent)) == Consistent(s)
  {
  }

  /** Only the last of two `setColor` calls matters. */
  lemma SetColorLastWins(s: State, c1: string, c2: string)
    requires StartsWithHash(c2) && Accepted(c2)
    ensures SetColor(SetColor(s, c1), c2) == SetColor(s, c2)
  {
  }

  /** The colour set from Kelvin decodes to exactly the converted triple. */
  lemma SetKelvinColorDecodes(s: State, k: real, m: MathLib)
    ensures HexToRgb(SetKelvin(s, k, m).color) == Some(KelvinToRgb(k, m))
    ensures SetKelvin(s, k, m).color == CanonicalHex(KelvinToRgb(k, m))
  {
  }

  /** Feeding the boxes written by `updateFromRgb` back to it changes nothing. */
  lemma UpdateFromRgbIdempotent(s: State, r: int, g: int, b: int)
    ensures var t := UpdateFromRgb(s, r, g, b);
      UpdateFromRgb(t, t.rgbFields.r, t.rgbFields.g, t.rgbFields.b) == t
  {
    var t := UpdateFromRgb(s, r, g, b);
    var c := t.rgbFields;
    assert ClampedBoxes(c.r, c.g, c.b) == c;
    SetEncoded(t, c);
  }

  lemma ExampleBytes()
    ensures HexByte(255) == "FF" && HexByte(0) == "00" && HexByte(128) == "80"
  {
    assert UpperDigit(15) == 'F' && UpperDigit(8) == '8' && UpperDigit(0) == '0';
  }

  /** Out-of-range boxes (300, -10, 128) give `#FF0080`. */
  lemma UpdateFromRgbExample(s: State)
    ensures UpdateFromRgb(s, 300, -10, 128).color == "#FF0080"
    ensures UpdateFromRgb(s, 300, -10, 128).rgbFields == Rgb(255, 0, 128)
  {
    var c := ClampedBoxes(300, -10, 128);
    assert c == Rgb(255, 0, 128);
    ExampleBytes();
    assert RgbToHex(255, 0, 128) == "#FF0080";
  }

  /** The start-up state is consistent exactly when the boxes show white. */
  lemma InitialConsistency(fields: Rgb)
    ensures Consistent(Initial(fields)) <==> fields == Rgb(255, 255, 255)
  {
    assert StripHash("#FFFFFF") == "FFFFFF";
    assert HexToRgb("#FFFFFF") == Some(Rgb(255, 255, 255));
  }
}

=== FILE: export.dfy ===
/**
 * The two pure expressions in `downloadImage`: whether a black overlay is
 * drawn over the filled canvas, with which opacity, and the name of the
 * downloaded file. Canvas drawing and PNG encoding are not modelled.
 */
module Export {
  import opened HexCodec
  import opened ColorState

  /** `1 - (brightness / 100)`, the alpha of the black overlay. */
  function Opacity(brightness: real): (a: real)
    ensures 0.0 <= brightness <= 100.0 ==> 0.0 <= a <= 1.0
    ensures brightness == 100.0 ==> a == 0.0
    ensures brightness == 0.0 ==> a == 1.0
    ensures a > 0.0 <==> brightness < 100.0
  {
    1.0 - brightness / 100.0
  }

  /** The alpha falls by 1/100 for every percent of brightness. */
  lemma OpacityLinear(b1: real, b2: real)
    ensures Opacity(b1) - Opacity(b2) == (b2 - b1) / 100.0
  {
  }

  /** With the alpha 0 at full brightness, linearity fixes every value. */
  lemma OpacityValue(brightness: real)
    ensures Opacity(brightness) == (100.0 - brightness) / 100.0
  {
    OpacityLinear(brightness, 100.0);
  }

  /** The overlay is drawn only when its opacity is positive, that is below full brightness. */
  predicate DrawsOverlay(brightness: real)
    ensures DrawsOverlay(brightness) <==> brightness < 100.0
  {
    Opacity(brightness) > 0.0
  }

  /** After `setBrightness(p)` the export draws an overlay exactly when p < 100. */
  lemma OverlayExactlyWhenDimmed(s: State, p: real)
    ensures DrawsOverlay(SetBrightness(s, p).brightness) <==> p < 100.0
  {
  }

  /** Halving the brightness draws a half-transparent black overlay. */
  lemma HalfBrightness(s: State)
    ensures Opacity(SetBrightness(s, 50.0).brightness) == 0.5
  {
  }

  /** `String.prototype.replace('#', '')`: the first `#`, wherever it is, is removed. */
  function RemoveFirstHash(s: string): (t: string)
    ensures '#' !in s ==> t == s
    ensures StartsWithHash(s) ==> t == s[1..]
    decreases |s|
  {
    if |s| == 0 then s
    else if s[0] == '#' then s[1..]
    else [s[0]] + RemoveFirstHash(s[1..])
  }

  /** When there is a `#`, exactly one is removed and no other character. */
  lemma {:induction false} RemoveFirstHashCount(s: string)
    requires '#' in s
    ensures |RemoveFirstHash(s)| == |s| - 1
    ensures multiset(RemoveFirstHash(s)) == multiset(s) - multiset{'#'}
    decreases |s|
  {
    assert s == [s[0]] + s[1..];
    if s[0] != '#' {
      RemoveFirstHashCount(s[1..]);
    }
  }

  /** Past a first character that is not `#`, the first `#` sits one place earlier. */
  lemma FirstHashInTail(s: string, i: nat)
    requires 0 < i < |s| && s[i] == '#'
    requires forall j :: 0 <= j < i ==> s[j] != '#'
    ensures s[1..][i - 1] == '#'
    ensures forall j :: 0 <= j < i - 1 ==> s[1..][j] != '#'
  {
    forall j | 0 <= j < i - 1
      ensures s[1..][j] != '#'
    {
      assert s[1..][j] == s[j + 1];
    }
  }

  /** The `#` removed is the first one, and the characters around it keep their order. */
  lemma {:induction false} RemoveFirstHashAt(s: string, i: nat)
    requires i < |s| && s[i] == '#'
    requires forall j :: 0 <= j < i ==> s[j] != '#'
    ensures RemoveFirstHash(s) == s[..i] + s[i + 1..]
    decreases i
  {
    if i > 0 {
      var rest := s[1..];
      FirstHashInTail(s, i);
      RemoveFirstHashAt(rest, i - 1);
      calc {
        RemoveFirstHash(s);
        { assert s[0] != '#'; }
        [s[0]] + RemoveFirstHash(rest);
        [s[0]] + (rest[..i - 1] + rest[i..]);
        { assert s[..i] == [s[0]] + rest[..i - 1]; assert s[i + 1..] == rest[i..]; }
        s[..i] + s[i + 1..];
      }
    }
  }

  function DecimalDigit(d: nat): char
    requires d < 10
  {
    ('0' as int + d) as char
  }

  predicate IsDecimalDigit(c: char)
  {
    '0' <= c <= '9'
  }

  /**
   * The template-literal rendering of a screen width or height. Integers from
   * 10^21 up would be written in exponent notation; screen sizes never reach that.
   */
  function Decimal(n: nat): (s: string)
    ensures |s| >= 1
    ensures forall i :: 0 <= i < |s| ==> IsDecimalDigit(s[i])
    decreases n
  {
    if n < 10 then [DecimalDigit(n)] else Decimal(n / 10) + [DecimalDigit(n % 10)]
  }

  /** A template literal never writes a leading zero, except for `0` itself. */
  lemma {:induction false} DecimalNoLeadingZero(n: nat)
    ensures Decimal(n)[0] == '0' ==> n == 0
    decreases n
  {
    if n >= 10 {
      DecimalNoLeadingZero(n / 10);
      assert Decimal(n)[0] == Decimal(n / 10)[0];
    }
  }

  /** Reading a string of decimal digits as a number. */
  function DecimalValue(s: string): nat
    requires forall i :: 0 <= i < |s| ==> IsDecimalDigit(s[i])
  {
    if |s| == 0 then 0
    else
      assert IsDecimalDigit(s[|s| - 1]);
      10 * DecimalValue(s[..|s| - 1]) + (s[|s| - 1] as int - '0' as int)
  }

  lemma {:induction false} DecimalRoundTrip(n: nat)
    ensures DecimalValue(Decimal(n)) == n
    decreases n
  {
    if n >= 10 {
      var s := Decimal(n);
      assert s[..|s| - 1] == Decimal(n / 10);
      DecimalRoundTrip(n / 10);
    }
  }

  /** Where each part of `whitescreen-<c>-<w>x<h>.png` sits. */
  lemma NameLayout(c: string, w: string, h: string)
    ensures var f := "whitescreen-" + c + "-" + w + "x" + h + ".png";
      && |f| == 18 + |c| + |w| + |h|
      && f[..12] == "whitescreen-"
      && f[12..12 + |c|] == c
      && f[12 + |c|] == '-'
      && f[13 + |c|..13 + |c| + |w|] == w
      && f[13 + |c| + |w|] == 'x'
      && f[14 + |c| + |w|..14 + |c| + |w| + |h|] == h
      && f[|f| - 4..] == ".png"
  {
    var f := "whitescreen-" + c + "-" + w + "x" + h + ".png";
    var tail := "-" + w + "x" + h + ".png";
    assert f == "whitescreen-" + c + tail;
    assert f[12 + |c|..] == tail;
    var tail2 := "x" + h + ".png";
    assert tail == "-" + w + tail2;
    assert tail[1 + |w|..] == tail2;
  }

  /**
   * `whitescreen-<colour without its first #>-<width>x<height>.png`: the name
   * begins `whitescreen-`, then carries the colour with its first `#` removed,
   * a `-`, the width, an `x`, the height, and ends `.png`.
   */
  function FileName(color: string, width: nat, height: nat): (f: string)
    ensures var c, w, h := RemoveFirstHash(color), Decimal(width), Decimal(height);
      && |f| == 18 + |c| + |w| + |h|
      && f[..12] == "whitescreen-"
      && f[12..12 + |c|] == c
      && f[12 + |c|] == '-'
      && f[13 + |c|..13 + |c| + |w|] == w
      && f[13 + |c| + |w|] == 'x'
      && f[14 + |c| + |w|..14 + |c| + |w| + |h|] == h
      && f[|f| - 4..] == ".png"
  {
    NameLayout(RemoveFirstHash(color), Decimal(width), Decimal(height));
    "whitescreen-" + RemoveFirstHash(color) + "-" + Decimal(width) + "x" + Decimal(height) + ".png"
  }

  /**
   * For a consistent state the name carries the six hex digits of the colour
   * at a fixed place, followed by the width and height.
   */
  lemma FileNameOfConsistent(s: State, width: nat, height: nat)
    requires Consistent(s)
    ensures var f := FileName(s.color, width, height);
      var w, h := Decimal(width), Decimal(height);
      && |f| == 24 + |w| + |h|
      && f[12..18] == s.color[1..]
      && f[18] == '-'
      && f[19..19 + |w|] == w
      && f[19 + |w|] == 'x'
      && f[20 + |w|..20 + |w| + |h|] == h
  {
    assert |s.color| == 7 by {
      assert Accepted(s.color);
    }
    assert RemoveFirstHash(s.color) == s.color[1..];
  }
}

=== FILE: hex_codec.dfy ===
/**
 * The two colour codecs of script.js: `hexToRgb`, a case-insensitive match of
 * `#?` followed by three two-digit hex pairs, and `rgbToHex`, which renders
 * `(1 << 24) + (r << 16) + (g << 8) + b` in base 16, drops the leading `1`,
 * upper-cases the rest and prefixes `#`.
 */
module HexCodec {
  import opened Options

  /** An RGB triple; channels are not range-restricted by the type. */
  datatype Rgb = Rgb(r: int, g: int, b: int)

  predicate InByteRange(c: Rgb)
  {
    0 <= c.r <= 255 && 0 <= c.g <= 255 && 0 <= c.b <= 255
  }

  /* ---------- the decoding grammar ---------- */

  /** A character of the class `[a-f\d]` under the `i` flag. */
  predicate IsHexDigit(c: char)
  {
    '0' <= c <= '9' || 'a' <= c <= 'f' || 'A' <= c <= 'F'
  }

  predicate AllHex(s: string)
  {
    forall i :: 0 <= i < |s| ==> IsHexDigit(s[i])
  }

  /** The strings the regular expression `^#?([a-f\d]{2})([a-f\d]{2})([a-f\d]{2})$` (flag `i`) accepts. */
  predicate Accepted(s: string)
  {
    || (|s| == 6 && AllHex(s))
    || (|s| == 7 && s[0] == '#' && AllHex(s[1..]))
  }

  /** The input without the optional leading `#`. */
  function StripHash(s: string): string
  {
    if |s| > 0 && s[0] == '#' then s[1..] else s
  }

  function HexValue(c: char): (v: nat)
    requires IsHexDigit(c)
    ensures v < 16
  {
    if '0' <= c <= '9' then c as int - '0' as int
    else if 'a' <= c <= 'f' then c as int - 'a' as int + 10
    else c as int - 'A' as int + 10
  }

  /** `parseInt(pair, 16)` of a two-digit captured group. */
  function ParsePair(hi: char, lo: char): (v: nat)
    requires IsHexDigit(hi) && IsHexDigit(lo)
    ensures v < 256
  {
    16 * HexValue(hi) + HexValue(lo)
  }

  /** `hexToRgb`: a triple exactly for the accepted strings, `null` (None) otherwise. */
  function HexToRgb(hex: string): (res: Option<Rgb>)
    ensures res.Some? <==> Accepted(hex)
    ensures res.Some? ==> InByteRange(res.value)
  {
    var d := StripHash(hex);
    if |d| == 6 && AllHex(d) then
      Some(Rgb(ParsePair(d[0], d[1]), ParsePair(d[2], d[3]), ParsePair(d[4], d[5])))
    else
      None
  }

  /* ---------- the encoding computation, as written ---------- */

  function Pow2(k: nat): (p: nat)
    ensures p >= 1
  {
    if k == 0 then 1 else 2 * Pow2(k - 1)
  }

  function Pow16(k: nat): (p: nat)
    ensures p >= 1
  {
    if k == 0 then 1 else 16 * Pow16(k - 1)
  }

  /** `x << k` for the non-negative operands below 2^31 that occur here. */
  function Shl(x: nat, k: nat): nat
  {
    x * Pow2(k)
  }

  /** The digit `Number.prototype.toString(16)` writes (lower case). */
  function LowerDigit(d: nat): char
    requires d < 16
  {
    if d < 10 then ('0' as int + d) as char else ('a' as int + d - 10) as char
  }

  predicate IsLowerHexDigit(c: char)
  {
    '0' <= c <= '9' || 'a' <= c <= 'f'
  }

  /**
   * `n.toString(16)` for a non-negative integer `n`: lower-case hex digits
   * with no leading zero except for `0` itself.
   */
  function ToBase16(n: nat): (s: string)
    ensures |s| >= 1
    ensures forall i :: 0 <= i < |s| ==> IsLowerHexDigit(s[i])
    ensures s[0] == '0' <==> n == 0
    decreases n
  {
    if n < 16 then [LowerDigit(n)] else ToBase16(n / 16) + [LowerDigit(n % 16)]
  }

  /** Reading a string of lower-case hex digits as a number. */
  function HexDigitsValue(s: string): nat
    requires forall i :: 0 <= i < |s| ==> IsLowerHexDigit(s[i])
  {
    if |s| == 0 then 0
    else
      var c := s[|s| - 1];
      assert IsLowerHexDigit(c);
      16 * HexDigitsValue(s[..|s| - 1]) + (if c <= '9' then c as int - '0' as int else c as int - 'a' as int + 10)
  }

  /** The digits `toString(16)` writes stand for the number rendered. */
  lemma {:induction false} ToBase16RoundTrip(n: nat)
    ensures HexDigitsValue(ToBase16(n)) == n
    decreases n
  {
    if n >= 16 {
      var s := ToBase16(n);
      assert s[..|s| - 1] == ToBase16(n / 16);
      ToBase16RoundTrip(n / 16);
    }
  }

  /** `String.prototype.toUpperCase` on ASCII characters. */
  function UpperChar(c: char): char
  {
    if 'a' <= c <= 'z' then (c as int - 32) as char else c
  }

  function ToUpper(s: string): (u: string)
    ensures |u| == |s|
  {
    seq(|s|, i requires 0 <= i < |s| => UpperChar(s[i]))
  }

  /** `rgbToHex(r, g, b)`, for channels already clamped to [0,255]. */
  function RgbToHex(r: int, g: int, b: int): (hex: string)
    requires 0 <= r <= 255 && 0 <= g <= 255 && 0 <= b <= 255
    ensures hex == CanonicalHex(Rgb(r, g, b))
  {
    var n := Shl(1, 24) + Shl(r, 16) + Shl(g, 8) + b;
    ShiftedSum(r, g, b);
    RenderedDigits(n, r, g, b);
    assert ToUpper(ToBase16(n)[1..]) == ToUpper(ToBase16(n))[1..];
    "#" + ToUpper(ToBase16(n)[1..])
  }

  /* ---------- an independent reference for the encoding ---------- */

  function UpperDigit(d: nat): char
    requires d < 16
  {
    if d < 10 then ('0' as int + d) as char else ('A' as int + d - 10) as char
  }

  predicate IsUpperHexDigit(c: char)
  {
    '0' <= c <= '9' || 'A' <= c <= 'F'
  }

  /** The two upper-case big-endian hex digits of a byte. */
  function HexByte(c: int): (s: string)
    requires 0 <= c <= 255
    ensures |s| == 2 && IsUpperHexDigit(s[0]) && IsUpperHexDigit(s[1])
  {
    [UpperDigit(c / 16), UpperDigit(c % 16)]
  }

  /** The canonical form of a byte triple: `#` and the three upper-case byte encodings. */
  function CanonicalHex(c: Rgb): string
    requires InByteRange(c)
  {
    "#" + HexByte(c.r) + HexByte(c.g) + HexByte(c.b)
  }

  /** The low `k` base-16 digits of `v`, lower case, most significant first. */
  function FixedHex(v: nat, k: nat): (s: string)
    ensures |s| == k
    decreases k
  {
    if k == 0 then [] else FixedHex(v / 16, k - 1) + [LowerDigit(v % 16)]
  }

  /* ---------- proof that the computation meets the reference ---------- */

  /** Dropping the last base-16 digit of `a * 16p + v` drops the last digit of `v`. */
  lemma ShiftDigit(n: nat, a: nat, v: nat, p: nat)
    requires v < 16 * p && n == a * (16 * p) + v
    ensures n / 16 == a * p + v / 16 && n % 16 == v % 16 && v / 16 < p
  {
    assert n == 16 * (a * p + v / 16) + v % 16;
  }

  /** Writing `a` on top of `k` low digits `v` renders `a`, then `v` padded to `k` digits. */
  lemma {:induction false} Base16Split(n: nat, a: nat, v: nat, k: nat)
    requires a >= 1 && v < Pow16(k) && n == a * Pow16(k) + v
    ensures ToBase16(n) == ToBase16(a) + FixedHex(v, k)
    decreases k
  {
    if k == 0 {
      assert v == 0 && n == a;
    } else {
      var p := Pow16(k - 1);
      ShiftDigit(n, a, v, p);
      assert n >= 16 by {
        assert a * (16 * p) == 16 * p + (a - 1) * (16 * p);
      }
      Base16Split(n / 16, a, v / 16, k - 1);
      calc {
        ToBase16(n);
        ToBase16(n / 16) + [LowerDigit(n % 16)];
        ToBase16(a) + FixedHex(v / 16, k - 1) + [LowerDigit(v % 16)];
        ToBase16(a) + FixedHex(v, k);
      }
    }
  }

  /** The low `j + k` digits of `n = x * 16^k + y` are the low `j` of `x` followed by `y`'s `k`. */
  lemma {:induction false} FixedHexConcat(n: nat, x: nat, y: nat, j: nat, k: nat)
    requires y < Pow16(k) && n == x * Pow16(k) + y
    ensures FixedHex(n, j + k) == FixedHex(x, j) + FixedHex(y, k)
    decreases k
  {
    if k > 0 {
      ShiftDigit(n, x, y, Pow16(k - 1));
      FixedHexConcat(n / 16, x, y / 16, j, k - 1);
      assert FixedHex(n, j + k) == FixedHex(n / 16, j + k - 1) + [LowerDigit(n % 16)];
    }
  }

  lemma UpperConcat(s: string, t: string)
    ensures ToUpper(s + t) == ToUpper(s) + ToUpper(t)
  {
  }

  lemma UpperByte(c: int)
    requires 0 <= c <= 255
    ensures ToUpper(FixedHex(c, 2)) == HexByte(c)
  {
    assert FixedHex(c, 2) == FixedHex(c / 16, 1) + [LowerDigit(c % 16)];
    assert FixedHex(c / 16, 1) == [LowerDigit(c / 16 % 16)];
  }

  lemma PowConstants()
    ensures Pow2(8) == 256 && Pow2(16) == 65536 && Pow2(24) == 16777216
    ensures Pow16(2) == 256 && Pow16(4) == 65536 && Pow16(6) == 16777216
  {
    assert Pow2(8) == 256;
    assert Pow2(16) == 65536;
    assert Pow16(4) == 65536;
  }

  /** The low six digits of `r * 16^4 + g * 16^2 + b` are the two-digit renderings of r, g, b. */
  lemma SixDigits(n: nat, r: nat, g: nat, b: nat)
    requires r <= 255 && g <= 255 && b <= 255
    requires n == (r * 256 + g) * 256 + b
    ensures FixedHex(n, 6) == FixedHex(r, 2) + FixedHex(g, 2) + FixedHex(b, 2)
  {
    PowConstants();
    var rg := r * 256 + g;
    FixedHexConcat(n, rg, b, 4, 2);
    var high := FixedHex(rg, 4);
    assert FixedHex(n, 6) == high + FixedHex(b, 2);
    FixedHexConcat(rg, r, g, 2, 2);
    assert high == FixedHex(r, 2) + FixedHex(g, 2);
  }

  /** `(1 << 24) + (r << 16) + (g << 8) + b` is `16^6` on top of the six-digit value. */
  lemma ShiftedSum(r: nat, g: nat, b: nat)
    ensures Shl(1, 24) + Shl(r, 16) + Shl(g, 8) + b == 16777216 + ((r * 256 + g) * 256 + b)
  {
    PowConstants();
    assert Shl(r, 16) == r * 65536;
    assert Shl(g, 8) == g * 256;
    assert (r * 256 + g) * 256 == r * 65536 + g * 256;
  }

  /** A number of seven base-16 digits led by `1` renders as `1` and its low six digits. */
  lemma LeadingOne(n: nat, v: nat)
    requires v < 16777216 && n == 16777216 + v
    ensures ToBase16(n) == "1" + FixedHex(v, 6)
  {
    PowConstants();
    Base16Split(n, 1, v, 6);
    assert ToBase16(1) == "1";
  }

  /** The base-16 rendering of `16^6 + v` is `1` and then the three bytes' digits of `v`. */
  lemma LowerRendering(n: nat, v: nat, r: nat, g: nat, b: nat)
    requires r <= 255 && g <= 255 && b <= 255
    requires v == (r * 256 + g) * 256 + b && n == 16777216 + v
    ensures ToBase16(n) == "1" + FixedHex(r, 2) + FixedHex(g, 2) + FixedHex(b, 2)
  {
    LeadingOne(n, v);
    SixDigits(v, r, g, b);
    var x, y, z := FixedHex(r, 2), FixedHex(g, 2), FixedHex(b, 2);
    assert "1" + (x + y + z) == "1" + x + y + z;
  }

  /** The upper-cased rendering of `16^6 + v`, past its leading `1`, is the three bytes. */
  lemma RenderedDigits(n: nat, r: nat, g: nat, b: nat)
    requires r <= 255 && g <= 255 && b <= 255
    requires n == 16777216 + ((r * 256 + g) * 256 + b)
    ensures ToUpper(ToBase16(n))[1..] == HexByte(r) + HexByte(g) + HexByte(b)
  {
    LowerRendering(n, (r * 256 + g) * 256 + b, r, g, b);
    var x, y, z := FixedHex(r, 2), FixedHex(g, 2), FixedHex(b, 2);
    UpperConcat("1", x + y + z);
    UpperConcat(x + y, z);
    UpperConcat(x, y);
    UpperByte(r);
    UpperByte(g);
    UpperByte(b);
  }

  /* ---------- format and round trips ---------- */

  lemma HexValueOfUpper(d: nat)
    requires d < 16
    ensures IsHexDigit(UpperDigit(d)) && HexValue(UpperDigit(d)) == d
  {
  }

  lemma UpperOfDigit(c: char)
    requires IsHexDigit(c)
    ensures UpperDigit(HexValue(c)) == UpperChar(c)
  {
  }

  /** `rgbToHex` writes `#` and exactly six upper-case hex digits. */
  lemma RgbToHexFormat(r: int, g: int, b: int)
    requires 0 <= r <= 255 && 0 <= g <= 255 && 0 <= b <= 255
    ensures var hex := RgbToHex(r, g, b);
      && |hex| == 7 && hex[0] == '#'
      && (forall i :: 1 <= i < 7 ==> IsUpperHexDigit(hex[i]))
      && Accepted(hex)
  {
    var hex := RgbToHex(r, g, b);
    var x, y, z := HexByte(r), HexByte(g), HexByte(b);
    assert hex[1..] == x + y + z;
    assert forall i :: 1 <= i < 7 ==> IsUpperHexDigit(hex[i]) by {
      forall i | 1 <= i < 7
        ensures IsUpperHexDigit(hex[i])
      {
        if i < 3 { assert hex[i] == x[i - 1]; }
        else if i < 5 { assert hex[i] == y[i - 3]; }
        else { assert hex[i] == z[i - 5]; }
      }
    }
  }

  /** Decoding an encoded triple gives the triple back. */
  lemma DecodeEncode(c: Rgb)
    requires InByteRange(c)
    ensures HexToRgb(RgbToHex(c.r, c.g, c.b)) == Some(c)
  {
    var hex := RgbToHex(c.r, c.g, c.b);
    RgbToHexFormat(c.r, c.g, c.b);
    var d := StripHash(hex);
    assert d == HexByte(c.r) + HexByte(c.g) + HexByte(c.b);
    HexValueOfUpper(c.r / 16);
    HexValueOfUpper(c.r % 16);
    HexValueOfUpper(c.g / 16);
    HexValueOfUpper(c.g % 16);
    HexValueOfUpper(c.b / 16);
    HexValueOfUpper(c.b % 16);
    assert ParsePair(d[0], d[1]) == c.r;
    assert ParsePair(d[2], d[3]) == c.g;
    assert ParsePair(d[4], d[5]) == c.b;
  }

  /** Re-encoding a decoded string gives `#` and its six digits upper-cased. */
  lemma EncodeDecode(hex: string)
    requires Accepted(hex)
    ensures var c := HexToRgb(hex).value;
      RgbToHex(c.r, c.g, c.b) == "#" + ToUpper(StripHash(hex))
  {
    var c := HexToRgb(hex).value;
    var d := StripHash(hex);
    assert |d| == 6 && AllHex(d);
    forall i | 0 <= i < 6
      ensures UpperDigit(HexValue(d[i])) == UpperChar(d[i])
    {
      UpperOfDigit(d[i]);
    }
    PairBytes(d[0], d[1]);
    PairBytes(d[2], d[3]);
    PairBytes(d[4], d[5]);
    assert ToUpper(d) == HexByte(c.r) + HexByte(c.g) + HexByte(c.b);
  }

  lemma PairBytes(hi: char, lo: char)
    requires IsHexDigit(hi) && IsHexDigit(lo)
    ensures HexByte(ParsePair(hi, lo)) == [UpperChar(hi), UpperChar(lo)]
  {
    var v := ParsePair(hi, lo);
    assert v / 16 == HexValue(hi) && v % 16 == HexValue(lo);
    UpperOfDigit(hi);
    UpperOfDigit(lo);
  }
}

=== FILE: kelvin.dfy ===
/**
 * `kelvinToRgb` in script.js: Tanner Helland's piecewise approximation of a
 * black-body colour, on the temperature in hundreds of Kelvin. `Math.log` and
 * `Math.pow` are left uninterpreted: they are supplied as arbitrary functions,
 * so every property proved here holds whatever values they return.
 */
module Kelvin {
  import opened Clamping
  import opened HexCodec

  /** The transcendental functions the approximation calls. */
  datatype MathLib = MathLib(log: real -> real, pow: (real, real) -> real)

  /** The red, green and blue values before clamping, branch by branch. */
  function RawChannels(temp: real, m: MathLib): (raw: (real, real, real))
    ensures temp <= 66.0 ==> raw.0 == 255.0
    ensures temp > 66.0 ==> raw.2 == 255.0
    ensures temp <= 19.0 ==> raw.2 == 0.0
  {
    if temp <= 66.0 then
      (255.0,
       99.4708025861 * m.log(temp) - 161.1195681661,
       if temp <= 19.0 then 0.0 else 138.5177312231 * m.log(temp - 10.0) - 305.0447927307)
    else
      (329.698727446 * m.pow(temp - 60.0, -0.1332047592),
       288.1221695283 * m.pow(temp - 60.0, -0.0755148492),
       255.0)
  }

  /**
   * `kelvinToRgb(kelvin)`: every channel is a byte whatever `log` and `pow`
   * return; the warm branch has full red, the cool branch full blue, and the
   * very warm end no blue at all.
   */
  function KelvinToRgb(kelvin: real, m: MathLib): (c: Rgb)
    ensures InByteRange(c)
    ensures kelvin / 100.0 <= 66.0 ==> c.r == 255
    ensures kelvin / 100.0 > 66.0 ==> c.b == 255
    ensures kelvin / 100.0 <= 19.0 ==> c.b == 0
  {
    var raw := RawChannels(kelvin / 100.0, m);
    Rgb(Clamp(raw.0, 0, 255), Clamp(raw.1, 0, 255), Clamp(raw.2, 0, 255))
  }

  ghost predicate MonotoneOnPositives(log: real -> real)
  {
    forall x, y :: 0.0 < x <= y ==> log(x) <= log(y)
  }

  /**
   * Below 6600 K green only depends on `log(temp)`, so with a monotone
   * logarithm it never decreases as the temperature rises.
   */
  lemma GreenRisesBelow6600(k1: real, k2: real, m: MathLib)
    requires MonotoneOnPositives(m.log)
    requires 0.0 < k1 <= k2 <= 6600.0
    ensures KelvinToRgb(k1, m).g <= KelvinToRgb(k2, m).g
  {
    var t1, t2 := k1 / 100.0, k2 / 100.0;
    assert m.log(t1) <= m.log(t2);
    ClampMonotone(RawChannels(t1, m).1, RawChannels(t2, m).1, 0, 255);
  }

  /** Between 1900 K and 6600 K blue likewise only rises, with `log` monotone. */
  lemma BlueRisesBelow6600(k1: real, k2: real, m: MathLib)
    requires MonotoneOnPositives(m.log)
    requires 0.0 < k1 <= k2 <= 6600.0
    ensures KelvinToRgb(k1, m).b <= KelvinToRgb(k2, m).b
  {
    var t1, t2 := k1 / 100.0, k2 / 100.0;
    if t1 > 19.0 {
      assert m.log(t1 - 10.0) <= m.log(t2 - 10.0);
      ClampMonotone(RawChannels(t1, m).2, RawChannels(t2, m).2, 0, 255);
    }
  }
}

=== FILE: options.dfy ===
/** The value-or-nothing type that stands for the source's `null` results. */
module Options {

  datatype Option<+T> = None | Some(value: T)
}
